=== FILE: README.md ===
# Project kickoff questionnaire — Dafny model

A model of the rule engine behind a two-screen chat questionnaire (`app.js`).
The first screen asks for a company name, a project name, a date and a set of
services (Messaging, Advertisement, Naming, Strategy). The second screen is
composed from that selection. It has a summary, then a complexity question per
selected service that has one, then each shared question (client materials,
competitors to analyze, stakeholders to interview) that at least one selected
service qualifies, asked once, and then the Advertisement group (platforms,
budget, duration) when Advertisement is selected. When the second screen is
submitted, the answers are gathered into a structured result. The result has
one `service_details` entry per selected service, `shared_details` keyed by
question, and `advertisement_details`.

Modules:

- `Wrappers` (`wrappers.dfy`): `Option` (a JavaScript `null`/`undefined`) and `Result`.
- `Catalog` (`catalog.dfy`): the services, the complexity, shared and Advertisement
  blocks with their block_id, action_id, element kind and option values, the
  applicability sets, and the proof that the catalog is well formed.
- `SlackValues` (`slack_values.dfy`): the reported view state as a map from
  (block_id, action_id) to a raw entry, and the JavaScript reads
  (`?.selected_option?.value`, `?.selected_options`, `?.value`, `|| null`).
- `Intake` (`intake.dfy`): the first screen, its validation, and the metadata
  carried to the second screen.
- `Composer` and `ComposerFacts` (`composer.dfy`): building the second screen, and
  what is proved about it.
- `Extractor` (`extractor.dfy`): building the structured result. `Extract` is
  the body of the second screen's submission handler without the platform
  plumbing.
- `Handlers` (`handlers.dfy`): the first screen's submission handler
  (`IntroSubmit`) without the platform plumbing, the compose/extract round
  trip, and worked examples on fixed selections.

The carried metadata (`private_metadata`) is passed from the first handler to
the second as a plain `Metadata` record. The JSON encoding it goes through is
not modelled.

Points of the code's behaviour worth stating on their own:

- `stakeholders_interview` applies to Naming and Strategy (`app.js:19`). So
  selecting Messaging and Strategy asks all three shared questions, because
  Strategy qualifies each of them (`Handlers.ScenarioMessagingStrategy`).
  Selecting Messaging alone leaves stakeholders_interview out
  (`Handlers.ScenarioMessaging`).
- The composer does not check for an empty selection itself. The handler's
  validation rejects it first (`Handlers.IntroSubmit`).
- The catalog is never checked for block_id collisions at startup. Instead,
  the distinctness of the constants is proved (`Catalog.CatalogIsWellFormed`).
- Only Advertisement has an extra block group, and it is hard-coded. It is
  modelled that way rather than as a general per-service list.
- A shared answer is recorded only when both its block and its action are
  present in the reported state (`app.js:349`), not merely its block.

## Model

| member | source | states |
|---|---|---|
| Catalog.CatalogIsWellFormed | app.js:25-164 | every catalog block has a distinct block_id; choice blocks offer only non-empty option values; the budget text input offers none |
| SlackValues.OrNull | app.js:351 | JavaScript `value \|\| null`: the result is non-null exactly when the value is a non-empty string, and then it is that value |
| Intake.Validate | app.js:248-260 | validation fails iff company, project or date is empty/null or no service is selected; each block gets an error exactly when its field fails, and that error is the block's own message; on success the metadata carries the form's fields unchanged |
| Composer.ComplexityBlocks | app.js:262-265 | a block is listed iff it is the complexity block of some selected service (Advertisement has none); never more blocks than services |
| Composer.Qualifies | app.js:268-273 | `some(...)` holds iff some selected service is in the question's applicable set |
| Composer.QualifyingAmong | app.js:275-278 | keeps exactly the qualifying questions of a list, in that list's order |
| Composer.SharedQuestions | app.js:268-278 | the shared questions asked are exactly those some selected service qualifies, in strictly increasing catalog order (hence each at most once) |
| Composer.Compose | app.js:285-300 | the second screen starts with the summary of the carried fields and lists only input blocks after it |
| ComposerFacts.ComplexityBlocksAppend | app.js:263-265 | complexity blocks follow selection order: composing a concatenation of selections concatenates their blocks |
| ComposerFacts.SharedBlocksSameServices | app.js:268-278 | the shared blocks depend only on which services are selected, not on their order or repetition |
| ComposerFacts.ComposeContents | app.js:262-300 | an input block is on the second screen iff it is a selected service's complexity block, a qualifying shared question's block, or an Advertisement block with Advertisement selected |
| ComposerFacts.ComposeSharedIff | app.js:268-278 | a shared question's block is on the second screen iff some selected service is in its applicable set |
| ComposerFacts.ComposeSectionsOrdered | app.js:285-300 | the second screen lists the summary, then complexity, then shared, then Advertisement blocks |
| ComposerFacts.ComposeSharedOnce | app.js:268-285 | for any selection, repeated services included, each shared question's block appears on the second screen at most once |
| ComposerFacts.ComposeEndsWithAdvertisement | app.js:281-283 | with Advertisement selected, the screen ends with platforms, budget, duration in that order |
| ComposerFacts.ComposeOmitsAdvertisement | app.js:281-283 | without Advertisement selected, no Advertisement block appears |
| ComposerFacts.CatalogGroupsDisjoint | app.js:25-164 | complexity, shared and Advertisement blocks never share a block_id |
| ComposerFacts.ComplexityIdsDistinct | app.js:263-265 | with distinct selected services, the complexity blocks have distinct block_ids |
| ComposerFacts.ComposedIdsDistinct | app.js:285-300 | with distinct selected services, every input block on the second screen has its own block_id |
| ComposerFacts.SplitJoinNames | app.js:294 | the `", "`-joined service list reads back as the selected services' names, in order |
| ComposerFacts.SummaryListsServices | app.js:294 | the summary names every selected service, in selection order |
| Extractor.DetailFor | app.js:339-345 | a service without a complexity block gets `{}`; one with a block gets the submitted selected value kept verbatim, or null when missing |
| Extractor.AddServiceDetails | app.js:337-346 | the forEach writes an entry for every selected service and leaves earlier entries of other services alone |
| Extractor.AddSharedDetails | app.js:349-360 | a shared entry is written iff its block and action are reported, with value `selected_option?.value \|\| null` |
| Extractor.AdvertisementFor | app.js:364-369 | platforms default to `[]`; budget and duration are null exactly when missing or empty |
| Extractor.Extract | app.js:320-370 | the result echoes the carried metadata, has a service entry for exactly the selected services, a shared entry exactly for the reported shared blocks, and Advertisement details iff Advertisement was selected |
| Handlers.IntroSubmit | app.js:239-313 | a second screen is built iff the form is complete; otherwise the response carries validation's per-field messages; on success the second screen carries the form's fields as metadata and is their composition |
| Handlers.RoundTripComplexity | app.js:337-346 | a valid complexity answer of a selected service is recorded unchanged |
| Handlers.RoundTripShared | app.js:349-360 | a valid shared answer is recorded unchanged (catalog options are non-empty, so `\|\| null` keeps them) |
| Handlers.RoundTripAdvertisement | app.js:363-370 | valid platforms, budget and duration answers are recorded unchanged when Advertisement is selected |
| Handlers.RoundTrip | app.js:310-370 | every block the second screen asks and the user answers validly is recorded exactly as submitted, and the first screen's fields reach the result unchanged |
| Handlers.EmptyAnswerSemantics | app.js:343-351 | an empty complexity answer is kept (`?? null`) while an empty shared answer becomes null (`\|\| null`) |
| Handlers.MissingComplexityIsNull | app.js:343-344 | an unanswered complexity question is recorded as null, not left out |
| Handlers.ScenarioNaming | app.js:262-300 | Naming alone yields its complexity block and all three shared blocks, and no Advertisement details |
| Handlers.ScenarioAdvertisement | app.js:262-300 | Advertisement alone yields just its three blocks, an empty service entry and Advertisement details from the answers |
| Handlers.ScenarioMessagingStrategy | app.js:16-20 | Messaging with Strategy asks all three shared questions once each |
| Handlers.ScenarioMessaging | app.js:268-278 | Messaging alone asks client_materials and competitors_analyze but not stakeholders_interview |
| Handlers.ScenarioNoBudget | app.js:366 | an Advertisement submission without a budget records a null budget |
| Handlers.ScenarioNoService | app.js:248-260 | an empty selection is refused with only the services message |

## Left out

- Platform wiring: the app construction, the `/service` command, opening the first view, acknowledgements and the app start (`app.js:169-236`, `app.js:385-388`).
- The webhook POST of the result and its console logging (`app.js:372-382`). These are network I/O whose errors are only logged.
- The JSON serialisation of `private_metadata` and the `|| '{}'` fallback. The metadata is passed as a record. A missing metadata would make the source throw on `selectedServices.forEach`, and that case is not modelled.
- Environment configuration (`dotenv`, `process.env`).
- Labels, placeholders, the view titles, and the mrkdwn layout of the summary beyond the joined service list. These are display only. The requesting user's id (`body.user.id`) is left out too.
- The first-screen reads (`values.company_name_block.company_name.value` and the others) assume the platform reports every first-screen block. A missing block would throw in the source, and that case is not modelled.
- The order of keys in the JSON objects of the result. `service_details` and `shared_details` are modelled as maps.
- Selected services are the enumerated `Service` values, because the multi-select can only report the four catalog values.

=== FILE: catalog.dfy ===
/** The static catalog of the questionnaire: the four services, the optional
    complexity question of each service, the three shared questions with the
    services they apply to, and the fixed group of Advertisement questions.
    All of it is immutable and known before any interaction starts. */
module Catalog {
  import opened Wrappers

  /** The services offered on the first screen, in the order it lists them. */
  datatype Service = Messaging | Advertisement | Naming | Strategy

  /** The value (and label) a service carries in the multi-select. */
  function ServiceName(s: Service): string {
    match s
    case Messaging => "Messaging"
    case Advertisement => "Advertisement"
    case Naming => "Naming"
    case Strategy => "Strategy"
  }

  /** The input element kinds the second screen uses. */
  datatype Kind = StaticSelect | MultiStaticSelect | PlainTextInput

  /** An input block of the second screen. `options` holds the option values of a
      choice element (every catalog option's label equals its value); a text
      input has none. Labels and placeholders are display-only and not modelled. */
  datatype InputBlock = InputBlock(blockId: string, actionId: string, kind: Kind, options: seq<string>)

  /** The key under which the platform reports the answer to a block. */
  function Key(b: InputBlock): (string, string) {
    (b.blockId, b.actionId)
  }

  const Tiers: seq<string> := ["Tier 1", "Tier 2", "Tier 3"]

  const MessagingComplexity: InputBlock :=
    InputBlock("messaging_complexity_level_block", "complexity_level", StaticSelect, Tiers)

  const NamingComplexity: InputBlock :=
    InputBlock("naming_complexity_level_block", "complexity_level", StaticSelect, Tiers)

  const StrategyComplexity: InputBlock :=
    InputBlock("strategy_complexity_level_block", "complexity_level", StaticSelect, ["Tier 1"])

  /** The complexity question of a service; Advertisement has none. */
  function ComplexityBlock(s: Service): Option<InputBlock> {
    match s
    case Messaging => Some(MessagingComplexity)
    case Naming => Some(NamingComplexity)
    case Strategy => Some(StrategyComplexity)
    case Advertisement => None
  }

  /** The questions asked at most once, whichever services qualify them. */
  datatype SharedQuestion = ClientMaterials | CompetitorsAnalyze | StakeholdersInterview

  /** The fixed order in which shared questions are asked. */
  const SharedOrder: seq<SharedQuestion> := [ClientMaterials, CompetitorsAnalyze, StakeholdersInterview]

  /** Position of a shared question in `SharedOrder`. */
  function Rank(q: SharedQuestion): (r: nat)
    ensures r < |SharedOrder| && SharedOrder[r] == q
  {
    match q
    case ClientMaterials => 0
    case CompetitorsAnalyze => 1
    case StakeholdersInterview => 2
  }

  /** The services for which a shared question is applicable. */
  function AppliesTo(q: SharedQuestion): set<Service> {
    match q
    case ClientMaterials => {Messaging, Naming, Strategy}
    case CompetitorsAnalyze => {Messaging, Naming, Strategy}
    case StakeholdersInterview => {Naming, Strategy}
  }

  const ClientMaterialsBlock: InputBlock :=
    InputBlock("shared_client_materials_block", "client_materials", StaticSelect, ["3", "5", "10", "15"])

  const CompetitorsAnalyzeBlock: InputBlock :=
    InputBlock("shared_competitors_analyze_block", "competitors_analyze", StaticSelect, ["2", "3", "5", "8"])

  const StakeholdersInterviewBlock: InputBlock :=
    InputBlock("shared_stakeholders_interview_block", "stakeholders_interview", StaticSelect, ["4", "8", "12", "20"])

  /** The block asking a shared question. */
  function SharedBlock(q: SharedQuestion): InputBlock {
    match q
    case ClientMaterials => ClientMaterialsBlock
    case CompetitorsAnalyze => CompetitorsAnalyzeBlock
    case StakeholdersInterview => StakeholdersInterviewBlock
  }

  const PlatformBlock: InputBlock :=
    InputBlock("advertisement_platform_block", "platforms", MultiStaticSelect,
               ["Google Ads", "Facebook", "Instagram", "LinkedIn", "Other"])

  const BudgetBlock: InputBlock :=
    InputBlock("advertisement_budget_block", "budget", PlainTextInput, [])

  const DurationBlock: InputBlock :=
    InputBlock("advertisement_duration_block", "duration", StaticSelect, ["2 weeks", "4 weeks", "8 weeks"])

  /** The Advertisement group: platforms, budget, duration, in that order. */
  const AdvertisementBlocks: seq<InputBlock> := [PlatformBlock, BudgetBlock, DurationBlock]

  /** The service whose complexity question `b` is, if any. */
  function ComplexityOwner(b: InputBlock): (r: Option<Service>)
    ensures r.Some? ==> ComplexityBlock(r.value) == Some(b)
    ensures r.None? ==> forall s :: ComplexityBlock(s) != Some(b)
  {
    if ComplexityBlock(Messaging) == Some(b) then Some(Messaging)
    else if ComplexityBlock(Naming) == Some(b) then Some(Naming)
    else if ComplexityBlock(Strategy) == Some(b) then Some(Strategy)
    else None
  }

  /** The shared question that `b` asks, if any. */
  function SharedOwner(b: InputBlock): (r: Option<SharedQuestion>)
    ensures r.Some? ==> SharedBlock(r.value) == b
    ensures r.None? ==> forall q :: SharedBlock(q) != b
  {
    if SharedBlock(ClientMaterials) == b then Some(ClientMaterials)
    else if SharedBlock(CompetitorsAnalyze) == b then Some(CompetitorsAnalyze)
    else if SharedBlock(StakeholdersInterview) == b then Some(StakeholdersInterview)
    else None
  }

  /** Every input block the catalog defines. */
  const CatalogBlocks: seq<InputBlock> := [
    MessagingComplexity, NamingComplexity, StrategyComplexity,
    ClientMaterialsBlock, CompetitorsAnalyzeBlock, StakeholdersInterviewBlock,
    PlatformBlock, BudgetBlock, DurationBlock]

  /** A block whose option values are all non-empty, so that a JavaScript
      `value || null` never discards a chosen option; choice kinds offer at
      least one option and a text input offers none. */
  predicate WellFormedBlock(b: InputBlock) {
    && (b.kind == PlainTextInput <==> b.options == [])
    && forall i :: 0 <= i < |b.options| ==> b.options[i] != ""
  }

  /** The catalog keys every question by a distinct block_id and every block is well formed. */
  predicate WellFormedCatalog() {
    && (forall i, j :: 0 <= i < j < |CatalogBlocks| ==> CatalogBlocks[i].blockId != CatalogBlocks[j].blockId)
    && (forall i :: 0 <= i < |CatalogBlocks| ==> WellFormedBlock(CatalogBlocks[i]))
  }

  /** A fingerprint of a block_id: its length, first character and fifteenth character. */
  function IdSignature(id: string): (int, char, char) {
    (|id|, if |id| > 0 then id[0] else ' ', if |id| > 14 then id[14] else ' ')
  }

  /** The fingerprints of the catalog's block_ids, pairwise different. */
  const CatalogIdSignatures: seq<(int, char, char)> := [
    (32, 'm', 'l'), (29, 'n', 'i'), (31, 's', 'e'), (29, 's', 'm'), (32, 's', 't'),
    (35, 's', 'l'), (28, 'a', 'p'), (26, 'a', 'b'), (28, 'a', 'd')]

  lemma ComplexitySignatures()
    ensures IdSignature(MessagingComplexity.blockId) == CatalogIdSignatures[0]
    ensures IdSignature(NamingComplexity.blockId) == CatalogIdSignatures[1]
    ensures IdSignature(StrategyComplexity.blockId) == CatalogIdSignatures[2]
  {
  }

  lemma SharedSignatures()
    ensures IdSignature(ClientMaterialsBlock.blockId) == CatalogIdSignatures[3]
    ensures IdSignature(CompetitorsAnalyzeBlock.blockId) == CatalogIdSignatures[4]
    ensures IdSignature(StakeholdersInterviewBlock.blockId) == CatalogIdSignatures[5]
  {
  }

  lemma AdvertisementSignatures()
    ensures IdSignature(PlatformBlock.blockId) == CatalogIdSignatures[6]
    ensures IdSignature(BudgetBlock.blockId) == CatalogIdSignatures[7]
    ensures IdSignature(DurationBlock.blockId) == CatalogIdSignatures[8]
  {
  }

  lemma CatalogSignatures()
    ensures |CatalogIdSignatures| == |CatalogBlocks|
    ensures forall i :: 0 <= i < |CatalogBlocks| ==> IdSignature(CatalogBlocks[i].blockId) == CatalogIdSignatures[i]
  {
    ComplexitySignatures();
    SharedSignatures();
    AdvertisementSignatures();
  }

  lemma CatalogIdsDistinct()
    ensures forall i, j :: 0 <= i < j < |CatalogBlocks| ==> CatalogBlocks[i].blockId != CatalogBlocks[j].blockId
  {
    CatalogSignatures();
    forall i, j | 0 <= i < j < |CatalogBlocks|
      ensures CatalogBlocks[i].blockId != CatalogBlocks[j].blockId
    {
      assert CatalogIdSignatures[i] != CatalogIdSignatures[j];
    }
  }

  lemma CatalogIsWellFormed()
    ensures WellFormedCatalog()
  {
    CatalogIdsDistinct();
    forall i | 0 <= i < |CatalogBlocks|
      ensures WellFormedBlock(CatalogBlocks[i])
    {
      var b := CatalogBlocks[i];
      assert b.kind == PlainTextInput <==> b.options == [];
      assert forall k :: 0 <= k < |b.options| ==> b.options[k] != "";
    }
  }
}

=== FILE: composer.dfy ===
/** The second screen: from the validated first screen, the ordered list of
    blocks to ask — a summary, the complexity question of each selected
    service, each applicable shared question once, and the Advertisement group. */
module Composer {
  import opened Wrappers
  import opened Catalog
  import opened Intake

  /** A block of the second screen: the summary section or an input block. */
  datatype Block =
    | Summary(companyName: string, projectName: string, date: string, services: string)
    | Input(input: InputBlock)

  /** `services.join(', ')` over the service names. */
  function JoinNames(services: seq<Service>): string {
    if |services| == 0 then ""
    else if |services| == 1 then ServiceName(services[0])
    else ServiceName(services[0]) + ", " + JoinNames(services[1..])
  }

  /** The complexity block of one service, as a list of zero or one block. */
  function ComplexityOf(s: Service): seq<InputBlock> {
    match ComplexityBlock(s)
    case Some(b) => [b]
    case None => []
  }

  /** The complexity blocks of the selected services that have one, in selection order. */
  function ComplexityBlocks(services: seq<Service>): (r: seq<InputBlock>)
    ensures |r| <= |services|
    ensures forall b :: b in r <==> exists s :: s in services && ComplexityBlock(s) == Some(b)
  {
    if services == [] then [] else ComplexityOf(services[0]) + ComplexityBlocks(services[1..])
  }

  /** `services.some((s) => SHARED_Q_APPLIES[q].has(s))`. */
  function Qualifies(services: seq<Service>, q: SharedQuestion): (r: bool)
    ensures r <==> exists s :: s in services && s in AppliesTo(q)
  {
    if services == [] then false
    else services[0] in AppliesTo(q) || Qualifies(services[1..], q)
  }

  /** Shared questions listed in strictly increasing catalog order. */
  predicate InSharedOrder(qs: seq<SharedQuestion>) {
    forall i, j :: 0 <= i < j < |qs| ==> Rank(qs[i]) < Rank(qs[j])
  }

  /** The qualifying questions among `qs`, keeping their order. */
  function QualifyingAmong(services: seq<Service>, qs: seq<SharedQuestion>): (r: seq<SharedQuestion>)
    requires InSharedOrder(qs)
    ensures InSharedOrder(r)
    ensures forall q :: q in r <==> q in qs && Qualifies(services, q)
  {
    if qs == [] then []
    else
      var rest := QualifyingAmong(services, qs[1..]);
      if Qualifies(services, qs[0]) then
        RanksAfterHead(qs, rest);
        [qs[0]] + rest
      else rest
  }

  /** In an ordered list, every question drawn from the tail comes after the head. */
  lemma RanksAfterHead(qs: seq<SharedQuestion>, rest: seq<SharedQuestion>)
    requires InSharedOrder(qs) && |qs| > 0
    requires InSharedOrder(rest) && forall q :: q in rest ==> q in qs[1..]
    ensures InSharedOrder([qs[0]] + rest)
  {
    forall q | q in rest ensures Rank(qs[0]) < Rank(q) {
      var k :| 0 <= k < |qs[1..]| && qs[1..][k] == q;
      assert qs[k + 1] == q;
    }
  }

  /** The shared questions the second screen asks. */
  function SharedQuestions(services: seq<Service>): (r: seq<SharedQuestion>)
    ensures InSharedOrder(r)
    ensures forall q :: q in r <==> exists s :: s in services && s in AppliesTo(q)
  {
    QualifyingAmong(services, SharedOrder)
  }

  /** The blocks asking the shared questions. */
  function SharedBlocks(services: seq<Service>): (r: seq<InputBlock>)
    ensures |r| == |SharedQuestions(services)|
    ensures forall i :: 0 <= i < |r| ==> r[i] == SharedBlock(SharedQuestions(services)[i])
  {
    var qs := SharedQuestions(services);
    seq(|qs|, i requires 0 <= i < |qs| => SharedBlock(qs[i]))
  }

  /** The Advertisement group when Advertisement is selected, nothing otherwise. */
  function AdBlocks(services: seq<Service>): seq<InputBlock> {
    if Advertisement in services then AdvertisementBlocks else []
  }

  /** The input blocks of the second screen, summary excluded. */
  function InputBlocks(services: seq<Service>): seq<InputBlock> {
    ComplexityBlocks(services) + SharedBlocks(services) + AdBlocks(services)
  }

  function AsBlocks(bs: seq<InputBlock>): (r: seq<Block>)
    ensures |r| == |bs|
    ensures forall i :: 0 <= i < |bs| ==> r[i] == Input(bs[i])
  {
    seq(|bs|, i requires 0 <= i < |bs| => Input(bs[i]))
  }

  /** The second screen's blocks. */
  function Compose(meta: Metadata): (r: seq<Block>)
    ensures |r| >= 1
    ensures r[0] == Summary(meta.companyName, meta.projectName, meta.date, JoinNames(meta.services))
    ensures forall i :: 1 <= i < |r| ==> r[i].Input?
  {
    [Summary(meta.companyName, meta.projectName, meta.date, JoinNames(meta.services))]
    + AsBlocks(InputBlocks(meta.services))
  }
}

/** Properties of the composed second screen. */
module ComposerFacts {
  import opened Wrappers
  import opened Catalog
  import opened Intake
  import opened Composer

  /** Complexity blocks follow selection order: composing a concatenation of
      selections concatenates their complexity blocks. */
  lemma {:induction false} ComplexityBlocksAppend(a: seq<Service>, b: seq<Service>)
    ensures ComplexityBlocks(a + b) == ComplexityBlocks(a) + ComplexityBlocks(b)
  {
    if a == [] {
      assert a + b == b;
    } else {
      assert (a + b)[0] == a[0];
      assert (a + b)[1..] == a[1..] + b;
      ComplexityBlocksAppend(a[1..], b);
      calc {
        ComplexityBlocks(a + b);
        ComplexityOf(a[0]) + ComplexityBlocks(a[1..] + b);
        ComplexityOf(a[0]) + (ComplexityBlocks(a[1..]) + ComplexityBlocks(b));
        (ComplexityOf(a[0]) + ComplexityBlocks(a[1..])) + ComplexityBlocks(b);
      }
    }
  }

  /** One step of `QualifyingAmong`: the head is kept iff it qualifies. */
  lemma QualifyingAmongCons(services: seq<Service>, q: SharedQuestion, rest: seq<SharedQuestion>)
    requires InSharedOrder([q] + rest)
    ensures InSharedOrder(rest)
    ensures QualifyingAmong(services, [q] + rest)
      == (if Qualifies(services, q) then [q] else []) + QualifyingAmong(services, rest)
  {
    assert ([q] + rest)[1..] == rest;
    assert ([q] + rest)[0] == q;
  }

  /** `SharedQuestions` unfolded one catalog question at a time. */
  lemma SharedQuestionsFirst(services: seq<Service>)
    ensures SharedQuestions(services)
      == (if Qualifies(services, ClientMaterials) then [ClientMaterials] else [])
       + QualifyingAmong(services, [CompetitorsAnalyze, StakeholdersInterview])
  {
    assert SharedOrder == [ClientMaterials] + [CompetitorsAnalyze, StakeholdersInterview];
    QualifyingAmongCons(services, ClientMaterials, [CompetitorsAnalyze, StakeholdersInterview]);
  }

  lemma SharedQuestionsSecond(services: seq<Service>)
    ensures QualifyingAmong(services, [CompetitorsAnalyze, StakeholdersInterview])
      == (if Qualifies(services, CompetitorsAnalyze) then [CompetitorsAnalyze] else [])
       + QualifyingAmong(services, [StakeholdersInterview])
  {
    assert [CompetitorsAnalyze, StakeholdersInterview] == [CompetitorsAnalyze] + [StakeholdersInterview];
    QualifyingAmongCons(services, CompetitorsAnalyze, [StakeholdersInterview]);
  }

  lemma SharedQuestionsThird(services: seq<Service>)
    ensures QualifyingAmong(services, [StakeholdersInterview])
      == if Qualifies(services, StakeholdersInterview) then [StakeholdersInterview] else []
  {
    QualifyingAmongCons(services, StakeholdersInterview, []);
    assert [StakeholdersInterview] + [] == [StakeholdersInterview];
  }

  /** A selection qualifying every shared question asks all three, in catalog order. */
  lemma SharedQuestionsAll(services: seq<Service>)
    requires Qualifies(services, ClientMaterials) && Qualifies(services, CompetitorsAnalyze)
    requires Qualifies(services, StakeholdersInterview)
    ensures SharedQuestions(services) == [ClientMaterials, CompetitorsAnalyze, StakeholdersInterview]
  {
    SharedQuestionsThird(services);
    var last := QualifyingAmong(services, [StakeholdersInterview]);
    assert last == [StakeholdersInterview];
    SharedQuestionsSecond(services);
    var tail := QualifyingAmong(services, [CompetitorsAnalyze, StakeholdersInterview]);
    assert tail == [CompetitorsAnalyze] + last;
    SharedQuestionsFirst(services);
    assert SharedQuestions(services) == [ClientMaterials] + tail;
  }

  /** A selection qualifying no shared question asks none. */
  lemma SharedQuestionsNone(services: seq<Service>)
    requires !Qualifies(services, ClientMaterials) && !Qualifies(services, CompetitorsAnalyze)
    requires !Qualifies(services, StakeholdersInterview)
    ensures SharedQuestions(services) == []
  {
    SharedQuestionsThird(services);
    var last := QualifyingAmong(services, [StakeholdersInterview]);
    assert last == [];
    SharedQuestionsSecond(services);
    var tail := QualifyingAmong(services, [CompetitorsAnalyze, StakeholdersInterview]);
    assert tail == [] + last;
    SharedQuestionsFirst(services);
    assert SharedQuestions(services) == [] + tail;
  }

  /** A selection qualifying only the first two shared questions asks just those. */
  lemma SharedQuestionsFirstTwo(services: seq<Service>)
    requires Qualifies(services, ClientMaterials) && Qualifies(services, CompetitorsAnalyze)
    requires !Qualifies(services, StakeholdersInterview)
    ensures SharedQuestions(services) == [ClientMaterials, CompetitorsAnalyze]
  {
    SharedQuestionsThird(services);
    var last := QualifyingAmong(services, [StakeholdersInterview]);
    assert last == [];
    SharedQuestionsSecond(services);
    var tail := QualifyingAmong(services, [CompetitorsAnalyze, StakeholdersInterview]);
    assert tail == [CompetitorsAnalyze] + last;
    SharedQuestionsFirst(services);
    assert SharedQuestions(services) == [ClientMaterials] + tail;
  }

  /** A single selected service qualifies exactly the questions applicable to it. */
  lemma QualifiesSingle(s: Service, q: SharedQuestion)
    ensures Qualifies([s], q) <==> s in AppliesTo(q)
  {
    assert [s][1..] == [];
  }

  /** Which shared questions are asked depends only on which services are
      selected, not on their order or repetition. */
  lemma {:induction false} QualifyingAmongSameServices(a: seq<Service>, b: seq<Service>, qs: seq<SharedQuestion>)
    requires InSharedOrder(qs)
    requires forall s :: s in a <==> s in b
    ensures QualifyingAmong(a, qs) == QualifyingAmong(b, qs)
  {
    if qs != [] {
      assert Qualifies(a, qs[0]) == Qualifies(b, qs[0]);
      QualifyingAmongSameServices(a, b, qs[1..]);
    }
  }

  lemma SharedBlocksSameServices(a: seq<Service>, b: seq<Service>)
    requires forall s :: s in a <==> s in b
    ensures SharedBlocks(a) == SharedBlocks(b)
  {
    QualifyingAmongSameServices(a, b, SharedOrder);
  }

  /** The part of the second screen a block belongs to: 0 summary,
      1 complexity, 2 shared, 3 Advertisement. */
  function SectionOf(b: Block): nat {
    match b
    case Summary(_, _, _, _) => 0
    case Input(ib) =>
      if ComplexityOwner(ib).Some? then 1 else if SharedOwner(ib).Some? then 2 else 3
  }

  lemma SectionOfComplexity(s: Service)
    requires ComplexityBlock(s).Some?
    ensures SectionOf(Input(ComplexityBlock(s).value)) == 1
  {
  }

  lemma SectionOfShared(q: SharedQuestion)
    ensures SectionOf(Input(SharedBlock(q))) == 2
  {
    assert ComplexityOwner(SharedBlock(q)).None?;
  }

  lemma SectionOfAdvertisement(k: nat)
    requires k < |AdvertisementBlocks|
    ensures SectionOf(Input(AdvertisementBlocks[k])) == 3
  {
    var b := AdvertisementBlocks[k];
    assert ComplexityOwner(b).None?;
    assert SharedOwner(b).None?;
  }

  /** Position `i` after the summary holds the `i`-th input block. */
  lemma ComposeInputAt(meta: Metadata, i: nat)
    requires 1 <= i < |Compose(meta)|
    ensures |Compose(meta)| == 1 + |InputBlocks(meta.services)|
    ensures Compose(meta)[i] == Input(InputBlocks(meta.services)[i - 1])
  {
    var head := [Summary(meta.companyName, meta.projectName, meta.date, JoinNames(meta.services))];
    var tail := AsBlocks(InputBlocks(meta.services));
    assert Compose(meta) == head + tail;
    assert (head + tail)[i] == tail[i - 1];
  }

  lemma ConcatAt<T>(x: seq<T>, y: seq<T>, z: seq<T>, k: nat)
    requires k < |x| + |y| + |z|
    ensures (x + y + z)[k] == if k < |x| then x[k] else if k < |x| + |y| then y[k - |x|] else z[k - |x| - |y|]
  {
  }

  /** The index-wise view of `Compose`: position 0 is the summary, then come
      the complexity, shared and Advertisement blocks back to back. */
  lemma ComposeAt(meta: Metadata, i: nat)
    requires 1 <= i < |Compose(meta)|
    ensures var c, sh, ad := ComplexityBlocks(meta.services), SharedBlocks(meta.services), AdBlocks(meta.services);
      && |Compose(meta)| == 1 + |c| + |sh| + |ad|
      && (i <= |c| ==> Compose(meta)[i] == Input(c[i - 1]))
      && (|c| < i <= |c| + |sh| ==> Compose(meta)[i] == Input(sh[i - 1 - |c|]))
      && (|c| + |sh| < i ==> Compose(meta)[i] == Input(ad[i - 1 - |c| - |sh|]))
  {
    var c, sh, ad := ComplexityBlocks(meta.services), SharedBlocks(meta.services), AdBlocks(meta.services);
    ComposeInputAt(meta, i);
    ConcatAt(c, sh, ad, i - 1);
  }

  /** A complexity block of the second screen belongs to a selected service. */
  lemma ComplexityMember(services: seq<Service>, k: nat)
    requires k < |ComplexityBlocks(services)|
    ensures exists s :: s in services && ComplexityBlock(s) == Some(ComplexityBlocks(services)[k])
  {
    assert ComplexityBlocks(services)[k] in ComplexityBlocks(services);
  }

  /** The second screen lists the summary, then complexity, then shared, then
      Advertisement blocks. */
  lemma ComposeSectionsOrdered(meta: Metadata)
    ensures var r := Compose(meta);
      forall i, j :: 0 <= i < j < |r| ==> SectionOf(r[i]) <= SectionOf(r[j])
  {
    var r := Compose(meta);
    forall i, j | 0 <= i < j < |r| ensures SectionOf(r[i]) <= SectionOf(r[j]) {
      if i > 0 {
        SectionAt(meta, i);
      }
      SectionAt(meta, j);
    }
  }

  /** The section of the block at position `i` of the second screen. */
  lemma SectionAt(meta: Metadata, i: nat)
    requires 1 <= i < |Compose(meta)|
    ensures var c, sh := |ComplexityBlocks(meta.services)|, |SharedBlocks(meta.services)|;
      SectionOf(Compose(meta)[i]) == if i <= c then 1 else if i <= c + sh then 2 else 3
  {
    var services := meta.services;
    var c, sh, ad := ComplexityBlocks(services), SharedBlocks(services), AdBlocks(services);
    ComposeAt(meta, i);
    if i <= |c| {
      ComplexityMember(services, i - 1);
      var s :| s in services && ComplexityBlock(s) == Some(c[i - 1]);
      SectionOfComplexity(s);
    } else if i <= |c| + |sh| {
      SectionOfShared(SharedQuestions(services)[i - 1 - |c|]);
    } else {
      assert ad == AdvertisementBlocks;
      SectionOfAdvertisement(i - 1 - |c| - |sh|);
    }
  }

  lemma InComposeIffInputBlock(meta: Metadata, b: InputBlock)
    ensures Input(b) in Compose(meta) <==> b in InputBlocks(meta.services)
  {
    var ins := InputBlocks(meta.services);
    var r := Compose(meta);
    if Input(b) in r {
      var i :| 0 <= i < |r| && r[i] == Input(b);
      ComposeInputAt(meta, i);
    }
    if b in ins {
      var i :| 0 <= i < |ins| && ins[i] == b;
      ComposeInputAt(meta, i + 1);
    }
  }

  lemma InSharedBlocks(services: seq<Service>, b: InputBlock)
    ensures b in SharedBlocks(services) <==>
      exists q :: SharedBlock(q) == b && exists s :: s in services && s in AppliesTo(q)
  {
    var sh := SharedBlocks(services);
    var qs := SharedQuestions(services);
    if b in sh {
      var i :| 0 <= i < |sh| && sh[i] == b;
      assert qs[i] in qs;
    }
    if exists q :: SharedBlock(q) == b && exists s :: s in services && s in AppliesTo(q) {
      var q :| SharedBlock(q) == b && exists s :: s in services && s in AppliesTo(q);
      var i :| 0 <= i < |qs| && qs[i] == q;
      assert sh[i] == b;
    }
  }

  /** An input block is on the second screen iff it is the complexity block of
      a selected service, the block of a shared question some selected service
      qualifies, or part of the Advertisement group with Advertisement selected. */
  lemma ComposeContents(meta: Metadata, b: InputBlock)
    ensures Input(b) in Compose(meta) <==>
      || (exists s :: s in meta.services && ComplexityBlock(s) == Some(b))
      || (exists q :: SharedBlock(q) == b && exists s :: s in meta.services && s in AppliesTo(q))
      || (b in AdvertisementBlocks && Advertisement in meta.services)
  {
    InComposeIffInputBlock(meta, b);
    InSharedBlocks(meta.services, b);
  }

  lemma SharedIsNoOtherBlock(q: SharedQuestion)
    ensures forall s :: ComplexityBlock(s) != Some(SharedBlock(q))
    ensures SharedBlock(q) !in AdvertisementBlocks
  {
    forall s | ComplexityBlock(s).Some? ensures ComplexityBlock(s) != Some(SharedBlock(q)) {
      CatalogGroupsDisjoint(s, q, 0);
    }
    forall k | 0 <= k < |AdvertisementBlocks| ensures AdvertisementBlocks[k] != SharedBlock(q) {
      CatalogGroupsDisjoint(Advertisement, q, k);
    }
  }

  lemma AdvertisementIsNoOtherBlock(k: nat)
    requires k < |AdvertisementBlocks|
    ensures forall s :: ComplexityBlock(s) != Some(AdvertisementBlocks[k])
    ensures forall q :: SharedBlock(q) != AdvertisementBlocks[k]
  {
    forall s | ComplexityBlock(s).Some? ensures ComplexityBlock(s) != Some(AdvertisementBlocks[k]) {
      CatalogGroupsDisjoint(s, ClientMaterials, k);
    }
    forall q ensures SharedBlock(q) != AdvertisementBlocks[k] {
      CatalogGroupsDisjoint(Advertisement, q, k);
    }
  }

  lemma SharedBlockInjective(q: SharedQuestion, q': SharedQuestion)
    requires SharedBlock(q) == SharedBlock(q')
    ensures q == q'
  {
  }

  /** A shared question is on the second screen iff some selected service is
      in its applicable set. */
  lemma ComposeSharedIff(meta: Metadata, q: SharedQuestion)
    ensures Input(SharedBlock(q)) in Compose(meta) <==> exists s :: s in meta.services && s in AppliesTo(q)
  {
    var b := SharedBlock(q);
    ComposeContents(meta, b);
    SharedIsNoOtherBlock(q);
    forall q' | SharedBlock(q') == b ensures q' == q {
      SharedBlockInjective(q', q);
    }
  }

  /** The Advertisement group closes the second screen, in catalog order,
      when Advertisement is selected. */
  lemma ComposeEndsWithAdvertisement(meta: Metadata)
    requires Advertisement in meta.services
    ensures var r := Compose(meta);
      |r| >= 4 && r[|r| - 3..] == AsBlocks(AdvertisementBlocks)
  {
    var r := Compose(meta);
    forall k | 0 <= k < 3 ensures r[|r| - 3 + k] == Input(AdvertisementBlocks[k]) {
      ComposeAt(meta, |r| - 3 + k);
    }
  }

  /** Without Advertisement selected, no block of its group appears. */
  lemma ComposeOmitsAdvertisement(meta: Metadata, k: nat)
    requires Advertisement !in meta.services
    requires k < |AdvertisementBlocks|
    ensures Input(AdvertisementBlocks[k]) !in Compose(meta)
  {
    AdvertisementIsNoOtherBlock(k);
    ComposeContents(meta, AdvertisementBlocks[k]);
  }

  /** No element occurs twice. */
  predicate Distinct<T(==)>(xs: seq<T>) {
    forall i, j :: 0 <= i < j < |xs| ==> xs[i] != xs[j]
  }

  /** No two blocks share a block_id. */
  predicate DistinctIds(bs: seq<InputBlock>) {
    forall i, j :: 0 <= i < j < |bs| ==> bs[i].blockId != bs[j].blockId
  }

  /** Joining two lists of blocks keeps block_ids distinct when each list has
      distinct block_ids and no block_id occurs in both. */
  lemma DistinctIdsConcat(x: seq<InputBlock>, y: seq<InputBlock>)
    requires DistinctIds(x) && DistinctIds(y)
    requires forall i, j :: 0 <= i < |x| && 0 <= j < |y| ==> x[i].blockId != y[j].blockId
    ensures DistinctIds(x + y)
  {
    forall i, j | 0 <= i < j < |x + y| ensures (x + y)[i].blockId != (x + y)[j].blockId {
      if j < |x| {
        assert (x + y)[i] == x[i] && (x + y)[j] == x[j];
      } else if i < |x| {
        assert (x + y)[i] == x[i] && (x + y)[j] == y[j - |x|];
      } else {
        assert (x + y)[i] == y[i - |x|] && (x + y)[j] == y[j - |x|];
      }
    }
  }

  /** Different services have complexity blocks with different block_ids. */
  lemma ComplexityIdsInjective(s: Service, t: Service)
    requires s != t && ComplexityBlock(s).Some? && ComplexityBlock(t).Some?
    ensures ComplexityBlock(s).value.blockId != ComplexityBlock(t).value.blockId
  {
    // Matches the named blocks to their positions in `CatalogBlocks`.
    CatalogIdsDistinct();
    assert CatalogBlocks[0] == MessagingComplexity && CatalogBlocks[1] == NamingComplexity;
    assert CatalogBlocks[2] == StrategyComplexity;
  }

  /** Complexity, shared and Advertisement blocks never share a block_id. */
  lemma CatalogGroupsDisjoint(s: Service, q: SharedQuestion, k: nat)
    requires k < |AdvertisementBlocks|
    ensures ComplexityBlock(s).Some? ==> ComplexityBlock(s).value.blockId != SharedBlock(q).blockId
    ensures ComplexityBlock(s).Some? ==> ComplexityBlock(s).value.blockId != AdvertisementBlocks[k].blockId
    ensures SharedBlock(q).blockId != AdvertisementBlocks[k].blockId
  {
    // Matches the named blocks to their positions in `CatalogBlocks`.
    CatalogIdsDistinct();
    assert CatalogBlocks[0] == MessagingComplexity && CatalogBlocks[1] == NamingComplexity;
    assert CatalogBlocks[2] == StrategyComplexity && CatalogBlocks[3] == ClientMaterialsBlock;
    assert CatalogBlocks[4] == CompetitorsAnalyzeBlock && CatalogBlocks[5] == StakeholdersInterviewBlock;
    assert CatalogBlocks[6..] == AdvertisementBlocks;
  }

  lemma DistinctTail<T>(xs: seq<T>)
    requires Distinct(xs) && |xs| > 0
    ensures Distinct(xs[1..])
    ensures xs[0] !in xs[1..]
  {
    var tail := xs[1..];
    forall i, j | 0 <= i < j < |tail| ensures tail[i] != tail[j] {
      assert tail[i] == xs[i + 1] && tail[j] == xs[j + 1];
    }
    if xs[0] in tail {
      var m :| 0 <= m < |tail| && tail[m] == xs[0];
      assert xs[m + 1] == xs[0];
    }
  }

  lemma {:induction false} ComplexityIdsDistinct(services: seq<Service>)
    requires Distinct(services)
    ensures DistinctIds(ComplexityBlocks(services))
  {
    if services != [] {
      var tail := services[1..];
      DistinctTail(services);
      ComplexityIdsDistinct(tail);
      var rest := ComplexityBlocks(tail);
      var head := ComplexityOf(services[0]);
      forall i, j | 0 <= i < |head| && 0 <= j < |rest| ensures head[i].blockId != rest[j].blockId {
        ComplexityMember(tail, j);
        var t :| t in tail && ComplexityBlock(t) == Some(rest[j]);
        ComplexityIdsInjective(services[0], t);
      }
      DistinctIdsConcat(head, rest);
    }
  }

  lemma SharedIdsDistinct(services: seq<Service>)
    ensures DistinctIds(SharedBlocks(services))
  {
    var qs := SharedQuestions(services);
    var sh := SharedBlocks(services);
    forall i, j | 0 <= i < j < |sh| ensures sh[i].blockId != sh[j].blockId {
      assert Rank(qs[i]) < Rank(qs[j]);
    }
  }

  /** Each shared question's block appears at most once on the second screen,
      whatever the selection, repeated services included. */
  lemma ComposeSharedOnce(meta: Metadata, q: SharedQuestion)
    ensures forall i, j ::
      0 <= i < j < |Compose(meta)| && Compose(meta)[i] == Input(SharedBlock(q)) ==>
        Compose(meta)[j] != Input(SharedBlock(q))
  {
    var r := Compose(meta);
    var c, sh := ComplexityBlocks(meta.services), SharedBlocks(meta.services);
    SectionOfShared(q);
    SharedIdsDistinct(meta.services);
    forall i, j | 0 <= i < j < |r| && r[i] == Input(SharedBlock(q))
      ensures r[j] != Input(SharedBlock(q))
    {
      // `r[i]` is a shared block, so `i` lies in the shared section, and so
      // does `j` unless it is already past it.
      SectionAt(meta, i);
      ComposeAt(meta, i);
      SectionAt(meta, j);
      ComposeAt(meta, j);
      if j <= |c| + |sh| {
        assert sh[i - 1 - |c|].blockId != sh[j - 1 - |c|].blockId;
      } else {
        assert SectionOf(r[j]) == 3;
      }
    }
  }

  lemma AdIdsDistinct(services: seq<Service>)
    ensures DistinctIds(AdBlocks(services))
  {
  }

  /** With distinct selected services, the input blocks have distinct block_ids. */
  lemma InputIdsDistinct(services: seq<Service>)
    requires Distinct(services)
    ensures DistinctIds(InputBlocks(services))
  {
    var c, sh, ad := ComplexityBlocks(services), SharedBlocks(services), AdBlocks(services);
    ComplexityIdsDistinct(services);
    SharedIdsDistinct(services);
    AdIdsDistinct(services);
    forall i, j | 0 <= i < |c| && 0 <= j < |sh| ensures c[i].blockId != sh[j].blockId {
      ComplexityMember(services, i);
      var s :| s in services && ComplexityBlock(s) == Some(c[i]);
      CatalogGroupsDisjoint(s, SharedQuestions(services)[j], 0);
    }
    DistinctIdsConcat(c, sh);
    forall i, j | 0 <= i < |c + sh| && 0 <= j < |ad| ensures (c + sh)[i].blockId != ad[j].blockId {
      assert ad == AdvertisementBlocks;
      if i < |c| {
        ComplexityMember(services, i);
        var s :| s in services && ComplexityBlock(s) == Some(c[i]);
        CatalogGroupsDisjoint(s, ClientMaterials, j);
      } else {
        CatalogGroupsDisjoint(Advertisement, SharedQuestions(services)[i - |c|], j);
      }
    }
    DistinctIdsConcat(c + sh, ad);
  }

  /** With distinct selected services, every block_id on the second screen is
      distinct: the platform reports each answer under its own key. */
  lemma ComposedIdsDistinct(meta: Metadata)
    requires Distinct(meta.services)
    ensures var r := Compose(meta);
      forall i, j :: 1 <= i < j < |r| ==> r[i].input.blockId != r[j].input.blockId
  {
    var r := Compose(meta);
    InputIdsDistinct(meta.services);
    forall i, j | 1 <= i < j < |r| ensures r[i].input.blockId != r[j].input.blockId {
      ComposeInputAt(meta, i);
      ComposeInputAt(meta, j);
    }
  }

  /** The names of the services, in order. */
  function Names(services: seq<Service>): (r: seq<string>)
    ensures |r| == |services|
    ensures forall i :: 0 <= i < |services| ==> r[i] == ServiceName(services[i])
  {
    seq(|services|, i requires 0 <= i < |services| => ServiceName(services[i]))
  }

  /** The position of the first comma of `s`, or `|s|` when there is none. */
  function IndexOfComma(s: string): (i: nat)
    ensures i <= |s|
    ensures forall k :: 0 <= k < i ==> s[k] != ','
    ensures i < |s| ==> s[i] == ','
  {
    if s == [] then 0 else if s[0] == ',' then 0 else 1 + IndexOfComma(s[1..])
  }

  /** Reads a `", "`-separated list back into its items. */
  function SplitNames(s: string): seq<string>
    decreases |s|
  {
    var i := IndexOfComma(s);
    if i == |s| then [s]
    else if i + 2 <= |s| then [s[..i]] + SplitNames(s[i + 2..])
    else [s[..i]]
  }

  lemma {:induction false} IndexOfCommaPrefix(n: string, rest: string)
    requires forall k :: 0 <= k < |n| ==> n[k] != ','
    ensures IndexOfComma(n + rest) == |n| + IndexOfComma(rest)
  {
    if n == [] {
      assert n + rest == rest;
    } else {
      assert (n + rest)[0] == n[0];
      assert (n + rest)[1..] == n[1..] + rest;
      IndexOfCommaPrefix(n[1..], rest);
    }
  }

  lemma NameHasNoComma(s: Service)
    ensures forall k :: 0 <= k < |ServiceName(s)| ==> ServiceName(s)[k] != ','
  {
  }

  /** The summary's service list reads back as the names of the selected
      services, in selection order. */
  lemma {:induction false} SplitJoinNames(services: seq<Service>)
    requires |services| > 0
    ensures SplitNames(JoinNames(services)) == Names(services)
  {
    var n := ServiceName(services[0]);
    NameHasNoComma(services[0]);
    if |services| == 1 {
      SplitSingle(n);
    } else {
      SplitNamesStep(n, JoinNames(services[1..]));
      SplitJoinNames(services[1..]);
      NamesCons(services);
    }
  }

  lemma NamesCons(services: seq<Service>)
    requires |services| > 0
    ensures Names(services) == [ServiceName(services[0])] + Names(services[1..])
  {
  }

  lemma SplitSingle(n: string)
    requires forall k :: 0 <= k < |n| ==> n[k] != ','
    ensures SplitNames(n) == [n]
  {
    IndexOfCommaPrefix(n, "");
    assert n + "" == n;
  }

  /** Splitting `n, rest` yields `n` followed by the items of `rest`. */
  lemma SplitNamesStep(n: string, rest: string)
    requires forall k :: 0 <= k < |n| ==> n[k] != ','
    ensures SplitNames(n + ", " + rest) == [n] + SplitNames(rest)
  {
    var whole := n + ", " + rest;
    assert whole == n + (", " + rest);
    IndexOfCommaPrefix(n, ", " + rest);
    assert IndexOfComma(", " + rest) == 0;
    assert whole[..|n|] == n;
    assert whole[|n| + 2..] == rest;
  }

  /** The summary block names every selected service, in selection order. */
  lemma SummaryListsServices(meta: Metadata)
    requires |meta.services| > 0
    ensures SplitNames(Compose(meta)[0].services) == Names(meta.services)
  {
    SplitJoinNames(meta.services);
  }
}

=== FILE: extractor.dfy ===
/** The submission of the second screen: the answers the platform reports,
    together with the metadata carried from the first screen, turned into the
    structured result that is handed on. */
module Extractor {
  import opened Wrappers
  import opened Catalog
  import opened SlackValues
  import opened Intake

  /** A service's entry in `service_details`: `{}` for a service without a
      complexity question, `{ complexity_level }` otherwise (`None` is `null`). */
  datatype ServiceDetail = NoComplexity | Complexity(level: Option<string>)

  /** `advertisement_details` when Advertisement is selected. */
  datatype AdvertisementDetails = AdvertisementDetails(platforms: seq<string>, budget: Option<string>, duration: Option<string>)

  /** The structured result. `advertisementDetails == None` stands for the
      empty object `{}`. The requesting user's id is not modelled. */
  datatype Submission = Submission(
    companyName: string,
    projectName: string,
    date: string,
    selectedServices: seq<Service>,
    serviceDetails: map<Service, ServiceDetail>,
    sharedDetails: map<SharedQuestion, Option<string>>,
    advertisementDetails: Option<AdvertisementDetails>)

  /** The entry of one service: its complexity answer kept as submitted
      (`answer ?? null` keeps an empty string). */
  function DetailFor(s: Service, values: Values): (r: ServiceDetail)
    ensures ComplexityBlock(s).None? <==> r == NoComplexity
    ensures ComplexityBlock(s).Some? ==>
      r.level == (if Key(ComplexityBlock(s).value) in values
                  && values[Key(ComplexityBlock(s).value)].SingleSelect?
                  then values[Key(ComplexityBlock(s).value)].selected else None)
  {
    match ComplexityBlock(s)
    case None => NoComplexity
    case Some(b) => Complexity(SelectedValue(Lookup(values, b)))
  }

  /** `services.forEach(...)` writing one entry per service into `acc`. */
  function AddServiceDetails(services: seq<Service>, values: Values, acc: map<Service, ServiceDetail>)
    : (r: map<Service, ServiceDetail>)
    ensures forall s :: s in r <==> s in acc || s in services
    ensures forall s :: s in services ==> r[s] == DetailFor(s, values)
    ensures forall s :: s in acc && s !in services ==> r[s] == acc[s]
  {
    if services == [] then acc
    else AddServiceDetails(services[1..], values, acc[services[0] := DetailFor(services[0], values)])
  }

  /** The recorded answer to a shared question: `selected_option?.value || null`. */
  function SharedAnswer(values: Values, q: SharedQuestion): (r: Option<string>)
    ensures r.Some? ==> Key(SharedBlock(q)) in values && values[Key(SharedBlock(q))] == SingleSelect(r)
    ensures r.Some? ==> r.value != ""
    ensures Key(SharedBlock(q)) in values && values[Key(SharedBlock(q))].SingleSelect?
            && Truthy(values[Key(SharedBlock(q))].selected)
            ==> r == values[Key(SharedBlock(q))].selected
  {
    OrNull(SelectedValue(Lookup(values, SharedBlock(q))))
  }

  /** Writes a shared answer when its block and action are present; questions
      before `qs` are in `acc` already. */
  function AddSharedDetails(qs: seq<SharedQuestion>, values: Values, acc: map<SharedQuestion, Option<string>>)
    : (r: map<SharedQuestion, Option<string>>)
    ensures forall q :: q in r <==> q in acc || (q in qs && Key(SharedBlock(q)) in values)
    ensures forall q :: q in qs && Key(SharedBlock(q)) in values ==> r[q] == SharedAnswer(values, q)
    ensures forall q :: q in acc && !(q in qs && Key(SharedBlock(q)) in values) ==> r[q] == acc[q]
  {
    if qs == [] then acc
    else
      var q := qs[0];
      var acc' := if Key(SharedBlock(q)) in values
                  then acc[q := SharedAnswer(values, q)]
                  else acc;
      AddSharedDetails(qs[1..], values, acc')
  }

  /** The Advertisement answers: `platforms` defaults to `[]`, an empty or
      missing budget or duration becomes `null`. */
  function AdvertisementFor(values: Values): (r: AdvertisementDetails)
    ensures r.platforms == SelectedValues(Lookup(values, PlatformBlock)).GetOr([])
    ensures r.budget.Some? <==> Truthy(TextValue(Lookup(values, BudgetBlock)))
    ensures r.duration.Some? <==> Truthy(SelectedValue(Lookup(values, DurationBlock)))
    ensures r.budget.Some? ==> r.budget == TextValue(Lookup(values, BudgetBlock))
    ensures r.duration.Some? ==> r.duration == SelectedValue(Lookup(values, DurationBlock))
  {
    AdvertisementDetails(
      SelectedValues(Lookup(values, PlatformBlock)).GetOr([]),
      OrNull(TextValue(Lookup(values, BudgetBlock))),
      OrNull(SelectedValue(Lookup(values, DurationBlock))))
  }

  /** `service_details`: one entry per selected service. */
  function ServiceDetails(services: seq<Service>, values: Values): (r: map<Service, ServiceDetail>)
    ensures r.Keys == set s | s in services
    ensures forall s :: s in services ==> r[s] == DetailFor(s, values)
  {
    AddServiceDetails(services, values, map[])
  }

  /** `shared_details`: an entry for every shared question whose block and
      action are reported. */
  function SharedDetails(values: Values): (r: map<SharedQuestion, Option<string>>)
    ensures forall q :: q in r <==> Key(SharedBlock(q)) in values
    ensures forall q :: q in r ==> r[q] == SharedAnswer(values, q)
  {
    assert forall q :: SharedOrder[Rank(q)] == q;
    AddSharedDetails(SharedOrder, values, map[])
  }

  /** Builds the structured result from the carried metadata and the answers. */
  function Extract(meta: Metadata, values: Values): (r: Submission)
    ensures r.companyName == meta.companyName && r.projectName == meta.projectName
    ensures r.date == meta.date && r.selectedServices == meta.services
    ensures r.serviceDetails.Keys == set s | s in meta.services
    ensures forall s :: s in meta.services ==> r.serviceDetails[s] == DetailFor(s, values)
    ensures forall q :: q in r.sharedDetails <==> Key(SharedBlock(q)) in values
    ensures forall q :: q in r.sharedDetails ==> r.sharedDetails[q] == SharedAnswer(values, q)
    ensures r.advertisementDetails.Some? <==> Advertisement in meta.services
    ensures r.advertisementDetails.Some? ==> r.advertisementDetails.value == AdvertisementFor(values)
  {
    Submission(
      meta.companyName, meta.projectName, meta.date, meta.services,
      ServiceDetails(meta.services, values), SharedDetails(values),
      if Advertisement in meta.services then Some(AdvertisementFor(values)) else None)
  }
}

=== FILE: handlers.dfy ===
/** The two view-submission handlers with the platform plumbing stripped
    away, the round trip between what the second screen asks and what the
    result records, and worked examples on fixed selections. */
module Handlers {
  import opened Wrappers
  import opened Catalog
  import opened SlackValues
  import opened Intake
  import opened Composer
  import opened ComposerFacts
  import opened Extractor

  /** The acknowledgement of the first screen: field errors, or an update to
      the second screen carrying the metadata and its blocks. */
  datatype IntroResponse =
    | Errors(errors: FieldErrors)
    | Update(meta: Metadata, blocks: seq<Block>)

  /** Submission of the first screen. An incomplete form is answered with
      `Validate`'s per-field messages; a second screen is built only for a
      complete form, and it carries that form's fields unchanged. */
  function IntroSubmit(form: IntroForm): (r: IntroResponse)
    ensures r.Errors? <==> !Complete(form)
    ensures r.Errors? ==> Validate(form) == Failure(r.errors)
    ensures r.Errors? ==>
      && (r.errors.companyNameBlock == if Truthy(form.companyName) then None else Some(CompanyNameRequired))
      && (r.errors.servicesBlock == if form.services == [] then Some(ServiceRequired) else None)
    ensures r.Update? ==>
      && r.meta == Metadata(form.companyName.value, form.projectName.value, form.date.value, form.services)
      && r.blocks == Compose(r.meta)
  {
    match Validate(form)
    case Failure(errors) => Errors(errors)
    case Success(meta) => Update(meta, Compose(meta))
  }

  /** What the result records for the question asked by block `b`, in the
      shape it was submitted in; `None` when the result has no place for it. */
  function Recovered(sub: Submission, b: InputBlock): Option<Raw> {
    match ComplexityOwner(b)
    case Some(s) =>
      if s in sub.serviceDetails && sub.serviceDetails[s].Complexity?
      then Some(SingleSelect(sub.serviceDetails[s].level)) else None
    case None =>
      match SharedOwner(b)
      case Some(q) => if q in sub.sharedDetails then Some(SingleSelect(sub.sharedDetails[q])) else None
      case None =>
        match sub.advertisementDetails
        case None => None
        case Some(ad) =>
          if b == PlatformBlock then Some(MultiSelect(ad.platforms))
          else if b == BudgetBlock then Some(Text(ad.budget))
          else if b == DurationBlock then Some(SingleSelect(ad.duration))
          else None
  }

  /** A valid answer to a catalog choice block is non-empty, so `|| null`
      keeps it. */
  lemma CatalogOptionNonEmpty(b: InputBlock, v: string)
    requires b in CatalogBlocks && v in b.options
    ensures v != ""
  {
    CatalogIsWellFormed();
    var i :| 0 <= i < |CatalogBlocks| && CatalogBlocks[i] == b;
    assert WellFormedBlock(CatalogBlocks[i]);
  }

  lemma RoundTripComplexity(meta: Metadata, values: Values, s: Service)
    requires s in meta.services && ComplexityBlock(s).Some?
    requires Answered(values, ComplexityBlock(s).value)
    ensures Recovered(Extract(meta, values), ComplexityBlock(s).value)
      == Some(values[Key(ComplexityBlock(s).value)])
  {
    var b := ComplexityBlock(s).value;
    assert ComplexityOwner(b) == Some(s);
  }

  lemma RoundTripShared(meta: Metadata, values: Values, q: SharedQuestion)
    requires Answered(values, SharedBlock(q))
    ensures Recovered(Extract(meta, values), SharedBlock(q)) == Some(values[Key(SharedBlock(q))])
  {
    var b := SharedBlock(q);
    assert ComplexityOwner(b).None?;
    assert SharedOwner(b) == Some(q);
    var sub := Extract(meta, values);
    assert sub.sharedDetails[q] == OrNull(SelectedValue(Some(values[Key(b)]))) by {
      assert q in SharedOrder;
    }
    assert b in CatalogBlocks;
    CatalogOptionNonEmpty(b, values[Key(b)].selected.value);
  }

  lemma RoundTripAdvertisement(meta: Metadata, values: Values, k: nat)
    requires Advertisement in meta.services && k < |AdvertisementBlocks|
    requires Answered(values, AdvertisementBlocks[k])
    ensures Recovered(Extract(meta, values), AdvertisementBlocks[k]) == Some(values[Key(AdvertisementBlocks[k])])
  {
    var b := AdvertisementBlocks[k];
    assert ComplexityOwner(b).None?;
    assert SharedOwner(b).None?;
    if k == 2 {
      assert b in CatalogBlocks;
      CatalogOptionNonEmpty(b, values[Key(b)].selected.value);
    }
  }

  /** Round trip: every question the second screen asks and the user answers
      validly is recorded in the result exactly as submitted. */
  lemma RoundTrip(form: IntroForm, values: Values, b: InputBlock)
    requires IntroSubmit(form).Update?
    requires Input(b) in IntroSubmit(form).blocks
    requires Answered(values, b)
    ensures Recovered(Extract(IntroSubmit(form).meta, values), b) == Some(values[Key(b)])
    ensures var sub := Extract(IntroSubmit(form).meta, values);
      && Some(sub.companyName) == form.companyName && Some(sub.projectName) == form.projectName
      && Some(sub.date) == form.date && sub.selectedServices == form.services
  {
    var meta := IntroSubmit(form).meta;
    ComposeContents(meta, b);
    if exists s :: s in meta.services && ComplexityBlock(s) == Some(b) {
      var s :| s in meta.services && ComplexityBlock(s) == Some(b);
      RoundTripComplexity(meta, values, s);
    } else if exists q :: SharedBlock(q) == b && exists s :: s in meta.services && s in AppliesTo(q) {
      var q :| SharedBlock(q) == b && exists s :: s in meta.services && s in AppliesTo(q);
      RoundTripShared(meta, values, q);
    } else {
      var k :| 0 <= k < |AdvertisementBlocks| && AdvertisementBlocks[k] == b;
      RoundTripAdvertisement(meta, values, k);
    }
  }

  /** An empty complexity answer is kept (`?? null`), while an empty shared
      answer becomes `null` (`|| null`). */
  lemma EmptyAnswerSemantics(meta: Metadata, values: Values, s: Service, q: SharedQuestion)
    requires s in meta.services && ComplexityBlock(s).Some?
    requires Key(ComplexityBlock(s).value) in values && values[Key(ComplexityBlock(s).value)] == SingleSelect(Some(""))
    requires Key(SharedBlock(q)) in values && values[Key(SharedBlock(q))] == SingleSelect(Some(""))
    ensures Extract(meta, values).serviceDetails[s] == Complexity(Some(""))
    ensures Extract(meta, values).sharedDetails[q] == None
  {
    assert q in SharedOrder;
  }

  /** An unanswered complexity question is recorded as `null`, not left out. */
  lemma MissingComplexityIsNull(meta: Metadata, values: Values, s: Service)
    requires s in meta.services && ComplexityBlock(s).Some?
    requires Key(ComplexityBlock(s).value) !in values
    ensures Extract(meta, values).serviceDetails[s] == Complexity(None)
  {
  }

  function Form(services: seq<Service>): IntroForm {
    IntroForm(Some("Acme"), Some("Launch"), Some("2024-01-01"), services)
  }

  /** A complete form with the given services reaches the second screen with
      its input blocks after the summary. */
  lemma FormComposes(services: seq<Service>)
    requires |services| > 0
    ensures IntroSubmit(Form(services)).Update?
    ensures IntroSubmit(Form(services)).meta.services == services
    ensures IntroSubmit(Form(services)).blocks[1..] == AsBlocks(InputBlocks(services))
  {
    var meta := Metadata("Acme", "Launch", "2024-01-01", services);
    assert Complete(Form(services));
    assert IntroSubmit(Form(services)) == Update(meta, Compose(meta));
  }

  lemma NamingInputs()
    ensures InputBlocks([Naming]) == [ComplexityBlock(Naming).value, SharedBlock(ClientMaterials),
                                      SharedBlock(CompetitorsAnalyze), SharedBlock(StakeholdersInterview)]
  {
    var services := [Naming];
    QualifiesSingle(Naming, ClientMaterials);
    QualifiesSingle(Naming, CompetitorsAnalyze);
    QualifiesSingle(Naming, StakeholdersInterview);
    SharedQuestionsAll(services);
    assert ComplexityBlocks(services) == [ComplexityBlock(Naming).value];
  }

  /** Selecting only Naming asks its complexity question and all three shared
      questions, and records no Advertisement details. */
  lemma ScenarioNaming(values: Values)
    ensures IntroSubmit(Form([Naming])).Update?
    ensures IntroSubmit(Form([Naming])).blocks[1..]
      == AsBlocks([ComplexityBlock(Naming).value, SharedBlock(ClientMaterials),
                   SharedBlock(CompetitorsAnalyze), SharedBlock(StakeholdersInterview)])
    ensures Extract(IntroSubmit(Form([Naming])).meta, values).advertisementDetails == None
  {
    FormComposes([Naming]);
    NamingInputs();
  }

  lemma AdvertisementInputs()
    ensures InputBlocks([Advertisement]) == AdvertisementBlocks
  {
    var services := [Advertisement];
    QualifiesSingle(Advertisement, ClientMaterials);
    QualifiesSingle(Advertisement, CompetitorsAnalyze);
    QualifiesSingle(Advertisement, StakeholdersInterview);
    SharedQuestionsNone(services);
    assert ComplexityBlocks(services) == [];
  }

  lemma ExtractAdvertisementOnly(meta: Metadata, values: Values)
    requires meta.services == [Advertisement]
    ensures Extract(meta, values).serviceDetails == map[Advertisement := NoComplexity]
    ensures Extract(meta, values).advertisementDetails == Some(AdvertisementFor(values))
  {
    var details := Extract(meta, values).serviceDetails;
    assert details.Keys == {Advertisement};
    assert details[Advertisement] == NoComplexity;
  }

  /** Selecting only Advertisement asks its group and no shared question; its
      service entry is empty and its details come from the answers. */
  lemma ScenarioAdvertisement(values: Values)
    ensures IntroSubmit(Form([Advertisement])).Update?
    ensures IntroSubmit(Form([Advertisement])).blocks[1..] == AsBlocks(AdvertisementBlocks)
    ensures var sub := Extract(IntroSubmit(Form([Advertisement])).meta, values);
      && sub.serviceDetails == map[Advertisement := NoComplexity]
      && sub.advertisementDetails == Some(AdvertisementFor(values))
  {
    FormComposes([Advertisement]);
    AdvertisementInputs();
    ExtractAdvertisementOnly(IntroSubmit(Form([Advertisement])).meta, values);
  }

  /** Messaging with Strategy asks every shared question exactly once:
      Strategy alone qualifies stakeholders_interview. */
  lemma ScenarioMessagingStrategy()
    ensures IntroSubmit(Form([Messaging, Strategy])).Update?
    ensures SharedQuestions([Messaging, Strategy]) == [ClientMaterials, CompetitorsAnalyze, StakeholdersInterview]
  {
    var services := [Messaging, Strategy];
    FormComposes(services);
    assert Strategy in services;
    assert Strategy in AppliesTo(ClientMaterials) && Strategy in AppliesTo(CompetitorsAnalyze);
    assert Strategy in AppliesTo(StakeholdersInterview);
    SharedQuestionsAll(services);
  }

  lemma MessagingShared()
    ensures SharedQuestions([Messaging]) == [ClientMaterials, CompetitorsAnalyze]
  {
    QualifiesSingle(Messaging, ClientMaterials);
    QualifiesSingle(Messaging, CompetitorsAnalyze);
    QualifiesSingle(Messaging, StakeholdersInterview);
    SharedQuestionsFirstTwo([Messaging]);
  }

  /** Messaging alone asks client_materials and competitors_analyze but not
      stakeholders_interview. */
  lemma ScenarioMessaging()
    ensures IntroSubmit(Form([Messaging])).Update?
    ensures SharedQuestions([Messaging]) == [ClientMaterials, CompetitorsAnalyze]
    ensures Input(SharedBlock(StakeholdersInterview)) !in IntroSubmit(Form([Messaging])).blocks
  {
    FormComposes([Messaging]);
    MessagingShared();
    ComposeSharedIff(IntroSubmit(Form([Messaging])).meta, StakeholdersInterview);
  }

  /** An Advertisement submission without a budget records `budget: null`. */
  lemma ScenarioNoBudget(meta: Metadata, values: Values)
    requires Advertisement in meta.services
    requires Key(BudgetBlock) !in values
    ensures Extract(meta, values).advertisementDetails.Some?
    ensures Extract(meta, values).advertisementDetails.value.budget == None
  {
  }

  /** An empty selection is refused with exactly the services message. */
  lemma ScenarioNoService()
    ensures IntroSubmit(Form([])) == Errors(FieldErrors(None, None, None, Some(ServiceRequired)))
  {
  }
}

=== FILE: intake.dfy ===
/** The first screen: company name, project name, date and the selected
    services, and the check run when it is submitted. */
module Intake {
  import opened Wrappers
  import opened Catalog
  import opened SlackValues

  /** What the first screen reports. The two text inputs and the date picker
      may be empty (`null`); the services come from the multi-select. */
  datatype IntroForm = IntroForm(
    companyName: Option<string>,
    projectName: Option<string>,
    date: Option<string>,
    services: seq<Service>)

  /** The state carried from the first screen to the second one
      (`private_metadata`), as produced by `Validate`. The second screen's
      handler trusts it as it is and checks nothing again. */
  datatype Metadata = Metadata(companyName: string, projectName: string, date: string, services: seq<Service>)

  /** Error message per first-screen block; `None` is an `undefined` entry. */
  datatype FieldErrors = FieldErrors(
    companyNameBlock: Option<string>,
    projectNameBlock: Option<string>,
    dateBlock: Option<string>,
    servicesBlock: Option<string>)

  const CompanyNameRequired := "Company name is required"
  const ProjectNameRequired := "Project name is required"
  const DateRequired := "Please select a date"
  const ServiceRequired := "Select at least one service"

  /** The form passes validation. */
  predicate Complete(form: IntroForm) {
    Truthy(form.companyName) && Truthy(form.projectName) && Truthy(form.date) && |form.services| != 0
  }

  /** The message for one field: set exactly when the field fails. */
  function ErrorIf(fails: bool, message: string): (r: Option<string>)
    ensures r.Some? <==> fails
    ensures r.Some? ==> r.value == message
  {
    if fails then Some(message) else None
  }

  /** Validates the first screen: either the metadata to carry on, or one
      message per offending field and none for the others. */
  function Validate(form: IntroForm): (r: Result<Metadata, FieldErrors>)
    ensures r.Failure? <==> !Complete(form)
    ensures r.Success? ==>
      && r.value.companyName == form.companyName.value && r.value.companyName != ""
      && r.value.projectName == form.projectName.value && r.value.projectName != ""
      && r.value.date == form.date.value && r.value.date != ""
      && r.value.services == form.services && |r.value.services| > 0
    ensures r.Failure? ==>
      && (r.error.companyNameBlock.Some? <==> !Truthy(form.companyName))
      && (r.error.projectNameBlock.Some? <==> !Truthy(form.projectName))
      && (r.error.dateBlock.Some? <==> !Truthy(form.date))
      && (r.error.servicesBlock.Some? <==> form.services == [])
    ensures r.Failure? ==>
      && (r.error.companyNameBlock.Some? ==> r.error.companyNameBlock.value == CompanyNameRequired)
      && (r.error.projectNameBlock.Some? ==> r.error.projectNameBlock.value == ProjectNameRequired)
      && (r.error.dateBlock.Some? ==> r.error.dateBlock.value == DateRequired)
      && (r.error.servicesBlock.Some? ==> r.error.servicesBlock.value == ServiceRequired)
  {
    if !Truthy(form.companyName) || !Truthy(form.projectName) || !Truthy(form.date) || |form.services| == 0 then
      Failure(FieldErrors(
        ErrorIf(!Truthy(form.companyName), CompanyNameRequired),
        ErrorIf(!Truthy(form.projectName), ProjectNameRequired),
        ErrorIf(!Truthy(form.date), DateRequired),
        ErrorIf(|form.services| == 0, ServiceRequired)))
    else
      Success(Metadata(form.companyName.value, form.projectName.value, form.date.value, form.services))
  }
}

=== FILE: slack_values.dfy ===
/** The submitted state of a view as the chat platform reports it, and the
    JavaScript access patterns the handlers apply to it. A state entry is an
    object whose shape depends on the element kind; reading a field that the
    entry does not have yields `undefined`, modelled as `None`. */
module SlackValues {
  import opened Wrappers
  import opened Catalog

  /** One reported element state: a single select's `selected_option`, a multi
      select's `selected_options`, or a text input's `value`. */
  datatype Raw =
    | SingleSelect(selected: Option<string>)
    | MultiSelect(selectedAll: seq<string>)
    | Text(text: Option<string>)

  /** `view.state.values`, keyed by (block_id, action_id). */
  type Values = map<(string, string), Raw>

  /** JavaScript truthiness of a string that may be null: `null`, `undefined`
      and `""` are falsy. */
  predicate Truthy(o: Option<string>) {
    o.Some? && o.value != ""
  }

  /** JavaScript `o || null` on a string that may be null. */
  function OrNull(o: Option<string>): (r: Option<string>)
    ensures r.Some? <==> Truthy(o)
    ensures r.Some? ==> r == o
  {
    if Truthy(o) then o else None
  }

  /** `values?.[blockId]?.[actionId]` for the key of block `b`. */
  function Lookup(values: Values, b: InputBlock): (r: Option<Raw>)
    ensures r.Some? <==> Key(b) in values
    ensures r.Some? ==> r.value == values[Key(b)]
  {
    if Key(b) in values then Some(values[Key(b)]) else None
  }

  /** `entry?.selected_option?.value`. */
  function SelectedValue(entry: Option<Raw>): Option<string> {
    match entry
    case Some(SingleSelect(o)) => o
    case _ => None
  }

  /** `entry?.selected_options?.map((o) => o.value)`. */
  function SelectedValues(entry: Option<Raw>): Option<seq<string>> {
    match entry
    case Some(MultiSelect(vs)) => Some(vs)
    case _ => None
  }

  /** `entry?.value` of a text input. */
  function TextValue(entry: Option<Raw>): Option<string> {
    match entry
    case Some(Text(o)) => o
    case _ => None
  }

  /** A well-typed, non-empty answer to block `b`: the entry has the shape of
      the block's element and only values the block offers (a text answer is
      any non-empty string). This is what the platform submits for an answered
      question. */
  predicate ValidAnswer(raw: Raw, b: InputBlock) {
    match b.kind
    case StaticSelect => raw.SingleSelect? && raw.selected.Some? && raw.selected.value in b.options
    case MultiStaticSelect => raw.MultiSelect? && forall v :: v in raw.selectedAll ==> v in b.options
    case PlainTextInput => raw.Text? && Truthy(raw.text)
  }

  /** The submitted values hold a valid answer to `b`. */
  predicate Answered(values: Values, b: InputBlock) {
    Key(b) in values && ValidAnswer(values[Key(b)], b)
  }
}

=== FILE: wrappers.dfy ===
/** `Option` stands for a JavaScript value that may be `null` or `undefined`;
    `Result` for the outcome of validating the first screen: the metadata to
    carry on, or the per-field error messages. */
module Wrappers {

  datatype Option<+T> = None | Some(value: T) {

    /** JavaScript `x ?? fallback`: the value when present, the fallback otherwise. */
    function GetOr(fallback: T): T {
      match this
      case Some(v) => v
      case None => fallback
    }
  }

  datatype Result<+R, +E> = Success(value: R) | Failure(error: E)
}
